=== FILE: README.md ===
# Batch rename tool, modelled in Dafny

The tool is a single Go program. It takes a sed-style pattern
`s/<search>/<replacement>/` and one or more file or glob arguments. It
renames every matched file by applying a regular-expression substitution to
the file's base name. Four flags change its behaviour: `-n` (dry run), `-r`
(descend into directories), `-i` (case-insensitive search) and `-v` (print
each rename).

This project models the logic of that program:

- the front end of `run`: `validateArgs`, `parsePattern`, `compilePattern`;
- the back end: `renameFile`, `processFile`, `processDirectory` and
  `processFiles`.

Everything is written as pure functions. Parsing works on `seq<char>`. The
file system is an immutable map from paths to entries. Each traversal step
returns a `Step`: the new tree, the lines printed, and the error returned.

Modules, one per concern:

- `Optional`: the `Option` type.
- `Text`: the `strings` functions the parser uses (`HasPrefix`, `Split`,
  `ReplaceAll` of backslash-dot), plus Go's ordering of strings, which
  `os.ReadDir` uses to sort its entries.
- `FileSystem`: `Path` is a directory (a list of components) plus a base
  name. Also `Entry`, `Tree`, the listing of a directory (`ListDir`), the
  rename of one key (`Move`), and the invariants a run keeps.
- `Errors`: the program's failures, split into fatal ones and per-path ones.
- `Pattern`: `validateArgs`, `parsePattern`, `compilePattern`. The regular
  expression engine is a parameter.
- `Renamer`: `renameFile`, the three traversal functions, and `run`.
- `Traversal`: lemmas that relate several traversal steps.
- `Scenarios`: end-to-end runs on small concrete trees.

What the model leaves to its parameters:

- The regular expression engine is a `RegexEngine` value. Its `diagnose`
  field gives the compile error for an expression, if there is one. Its
  `replaceAll` field plays `ReplaceAllString` and is not interpreted.
- The operating system is an `Os` value. Its `glob` field plays
  `filepath.Glob` and sees the tree as it is when the argument is reached.
  Its `readDirDenied` field says which directories cannot be listed. Its
  `renameRefused` field says which renames fail, and a failed rename
  leaves the tree unchanged.
- `os.Stat` succeeds exactly when the path is a key of the tree.

Recursion into directories terminates on the depth of the tree. Every
traversal function takes a ghost `bound` with `Bounded(tree, bound)`: every
key lies fewer than `bound` directories deep. `FileSystem.BoundExists` shows
that every finite tree has such a bound, so this requirement excludes no
input. The requirement is kept because every step satisfies `OnlyRenames`:
the same directories, and in every directory as many entries as before,
holding the same set of entries, each under as many names as before (so
hard links are told apart). So no entry ever sits deeper than before.

In these places the model follows `main.go` as written:

- The replacement is only the second `/`-separated piece of the pattern;
  any later pieces are dropped.
- In a dry run, a `src -> dst` line is printed only for a file whose name
  changes and whose new name is free. It is not printed for every match.
- The `src -> dst` line is printed before the rename is attempted. So with
  `-v`, a rename the OS refuses prints that line and then a warning.
- A malformed glob ends the run at once. Renames made by earlier arguments
  stay done.

## Model

| member | source | states |
|---|---|---|
| Pattern.ValidateArgs | main.go:60-68 | No argument fails with the missing-pattern error. Exactly one argument fails with the missing-files error. Otherwise it succeeds, and the pattern followed by the file list is exactly the argument list, in order. |
| Pattern.ParsePattern | main.go:70-82 | Input without the `s/` prefix fails with the prefix error. With the prefix, it fails exactly when no `/` follows, and every such failure is the format error. On success, `s/` + search + `/` is a prefix of the input, and neither the search nor the replacement contains `/`. |
| Pattern.ParsePatternSegments | main.go:75-81 | For `s/` + a + `/` + b + tail, where a and b contain no `/` and tail is empty or starts with `/`, the result is search a and replacement UnescapeDots(b). Whatever follows b is ignored. |
| Pattern.CompilePattern | main.go:84-89 | Succeeds exactly when the engine has no diagnostic for the expression it is handed. With -i that expression is `(?i)` + search; without -i it is the search unchanged. A failure is a fatal error that carries the engine's diagnostic. |
| Text.Split | main.go:75 | There is at least one piece, and no piece contains the separator. Joining them with the separator gives back the input. There is exactly one piece when the input has no separator. |
| Text.SplitCons | main.go:75 | Splitting cuts at the first separator. A head without the separator, followed by the separator, becomes the first piece, and the rest is split on its own. |
| Text.SplitJoin | main.go:75 | Splitting undoes joining pieces that contain no separator, so the split is unique. |
| Text.UnescapeDots | main.go:80 | The result is no longer than the input and uses only characters of the input, so a replacement without `/` stays without `/`. Input without a backslash-dot is returned unchanged. |
| Text.UnescapeAround | main.go:80 | Unescaping text that contains a backslash-dot gives the unescaped text before it, a dot, then the unescaped text after it. With the identity for text without a backslash-dot, this fixes the result on every input. |
| Text.UnescapeConcat | main.go:80 | Unescaping text whose second part does not start with a dot gives the unescaped first part followed by the unescaped second part, because no backslash-dot can straddle that boundary. |
| Text.UnescapeEscape | main.go:80 | Writing every literal dot as backslash-dot and then unescaping gives back the intended text, for every text. |
| Text.Sorted | main.go:125 | Lists each member of the set exactly once, in strictly ascending Go string order, with length equal to the set's size. |
| FileSystem.ListDir | main.go:125 | The names listed for a directory are exactly the names of the entries directly inside it, in strictly ascending order. |
| FileSystem.Entries | main.go:125-131 | The paths of a directory's entries, in listing order: each is the directory joined with the listed name, and they are exactly the entries directly inside the directory. |
| FileSystem.Move | main.go:159 | After the rename the destination holds the source's entry and the source is gone. Every other path is unchanged. |
| FileSystem.MoveOnlyRenames | main.go:148-161 | Renaming a file to a free name in its own directory keeps the directories and, in every directory, the number of entries, the set of entries it holds, and the number of names under which it holds each entry. |
| FileSystem.RenamesCompose | main.go:130-135 | Two renaming steps in a row are one renaming step, so the invariant carries through the loops. |
| FileSystem.BoundExists | main.go:118 | Every finite tree has a depth bound, so the descent's termination measure exists for every input. |
| FileSystem.BoundedPreserved | main.go:132 | A step that only renames keeps the tree within the same depth bound. |
| Renamer.RenameFile | main.go:139-165 | An unchanged name is a silent no-op. An occupied target fails with the target-exists error, changes nothing and prints nothing. Otherwise exactly one `src -> dst` line is printed, if and only if -v or -n is set. A dry run then succeeds. Without -n, a rename the OS refuses fails with the rename error. The tree changes if and only if it is not a dry run and the OS accepts the rename, and then it is exactly `Move` of the file. Any failure leaves the tree unchanged. |
| Renamer.ProcessFile | main.go:108-122 | Keeps the run invariants: only renames, the depth bound, nothing changed in a dry run, and every printed line is one the job can print. A missing path fails with the stat error. A directory without -r is a silent no-op. A directory with -r is exactly `ProcessDirectory` of it. Anything else is exactly `RenameFile` of it. Without -r, nothing outside the path's own directory changes. Every failure is a per-path error. |
| Renamer.ProcessDirectory | main.go:124-137 | Keeps the run invariants. It fails exactly when the directory cannot be listed, and then changes nothing and prints nothing. Otherwise it is exactly the loop over the directory's `Entries` in name order. |
| Renamer.ProcessPaths | main.go:130-135 | The loop over paths, shared by both loops of the source. It keeps the run invariants and never fails: a per-path error is never propagated. |
| Renamer.ProcessFiles | main.go:91-106 | Keeps the run invariants. A malformed first glob ends the run at once with the glob error, changing nothing and printing nothing; with `Traversal.MalformedGlobStops`, a malformed glob at any later position ends the run too. The only error it can return is a malformed glob, and that glob is one of its arguments. If every glob is well formed, it succeeds. |
| Renamer.Run | main.go:41-58 | Every error it returns is fatal. Each front-end stage that fails (arguments, pattern, compilation) ends the run with that stage's error, the tree untouched and nothing printed. A pattern without `s/` gives the prefix error. When every stage succeeds, the run is exactly `ProcessFiles` over the file arguments, and the job is `Substituting`: each base name rewritten by `engine.replaceAll(re, name, replacement)` with the compiled expression and the unescaped replacement (main.go:142). The tree changes only as `OnlyRenames` allows, a dry run changes nothing, and every printed rename stays in the same directory and changes the name. |
| Traversal.FileFrame | main.go:108-122 | Processing a path changes no entry outside the directory that holds the path. |
| Traversal.DirectoryFrame | main.go:124-137 | Processing a directory changes no entry outside that directory. |
| Traversal.PathsFrame | main.go:130-135 | Processing paths that all lie under a directory changes nothing outside that directory. |
| Traversal.PathsAppend | main.go:98-103 | Processing `ps + qs` means processing `ps`, then processing `qs` on the resulting tree, with the logs concatenated. Failures in `ps` never stop `qs`. |
| Traversal.PathsOne | main.go:99-101 | One path gives its own output, then a warning naming the path if processing it failed. The loop itself still succeeds. |
| Traversal.FilesAppend | main.go:91-106 | The loop over `gs + hs` is the loop over `gs` followed by the loop over `hs` on the tree `gs` left, with the output in that order. If the arguments in `gs` end the run with a malformed glob, no argument in `hs` runs and the result is theirs. |
| Traversal.MalformedGlobStops | main.go:92-96 | A malformed glob after arguments that succeeded ends the run with that glob's error: the tree and the output are those the earlier arguments left, and no later argument runs. |
| Scenarios.RenamesOnlyTheMatch | main.go:139-163 | With `s/old/new/` over `notes.txt` and `report_old.txt`, only the second file is renamed, to `report_new.txt`. Nothing is printed and the run succeeds. |
| Scenarios.DryRunOnlyPreviews | main.go:154-162 | The same file loop with -n prints exactly one `report_old.txt -> report_new.txt` line and leaves the tree as it was. |
| Scenarios.IgnoreCaseCompilesFlaggedExpression | main.go:84-88 | `s/OLD/new/` with -i hands the engine `(?i)OLD`. The engine's answer for `old_file.txt` becomes the file's new name. |
| Scenarios.CollisionIsAWarning | main.go:150-152 | `ab.txt` and `ba.txt` both map to `bb.txt`. The first is renamed. The second keeps its name and gets one target-exists warning. The run succeeds. |
| Scenarios.UnescapeMixed | main.go:80 | A replacement mixing a plain dot and a backslash-dot, `a.\.`, unescapes to `a..`. |
| Scenarios.HardLinkRepointIsNotARename | main.go:159 | Re-pointing one of two hard links at another file is not a renaming step, although the directory keeps its names and the tree holds the same entries. |
| Scenarios.TradingDirectoriesIsNotARename | main.go:159 | Two files swapping directories is not a renaming step, although the directories, the entry counts and the overall entries all stay the same. |
| Scenarios.RecursionGating | main.go:114-118 | Processing a directory path: without -r the tree is unchanged and nothing is printed; with -r the matching file inside is renamed. |

## Left out

- Flag parsing and `main` (main.go:19-39). `Options` is an input record. `main` only prints the returned error and exits with status 1.
- The semantics of Go regular expressions and of `$1`-style templates. `RegexEngine.replaceAll` is not interpreted, so case-insensitive matching itself is not modelled. Only the `(?i)` prefix handed to the engine is.
- `filepath.Glob` pattern matching. `Os.glob` is not interpreted and may depend on the current tree.
- Lexical path handling by `filepath.Join`, `Dir` and `Base`. A new name that is empty, is `.` or `..`, or contains `/` is treated as a plain base name in the same directory.
- Permission errors from `os.Stat`. A path that cannot be stat'ed is treated as missing, so it produces the same stat warning.
- The time between the existence check and the rename (another process creating the target), symbolic links, and renames across devices. A refused rename is an `Os.renameRefused` answer.
- The exact bytes written to standard output and standard error. The log holds `Preview(src, dst)` and `Warning(path, error)` events, and the fatal error is the returned status.
- Go strings are byte sequences; the model's strings are sequences of code points. Every piece of string handling (`strings.HasPrefix`, `strings.Split`, `strings.ReplaceAll`, the names themselves, and the byte order in which `os.ReadDir` sorts) agrees with the byte version on valid UTF-8, because `/`, `\` and `.` are ASCII and code point order matches UTF-8 byte order. Names that are not valid UTF-8 cannot be represented.

=== FILE: errors.dfy ===
/** The tool's failures. Fatal ones end the run with exit status 1; the
    others are printed as a warning for one path while the run goes on. */
module Errors {
  import opened FileSystem

  datatype Error =
    | PatternMissing                   // no positional argument at all
    | FilesMissing                     // a pattern but no file argument
    | MissingPrefix                    // the pattern does not start with "s/"
    | MissingSeparator                 // no '/' after the "s/" prefix
    | InvalidPattern(diagnostic: string)  // the regular expression does not compile
    | GlobFailed(glob: string)         // a file argument is a malformed glob
    | StatFailed(path: Path)           // the path does not exist
    | ReadDirFailed(path: Path)        // a directory could not be listed
    | TargetExists(target: Path)       // the new name is already taken
    | RenameFailed(src: Path, dst: Path)  // the rename itself was refused

  /** Errors that `run` returns to `main`, which prints them and exits 1. */
  predicate Fatal(e: Error) {
    e.PatternMissing? || e.FilesMissing? || e.MissingPrefix? || e.MissingSeparator?
    || e.InvalidPattern? || e.GlobFailed?
  }

  /** Errors about one path, which the traversal turns into warnings. */
  predicate PerPath(e: Error) {
    e.StatFailed? || e.ReadDirFailed? || e.TargetExists? || e.RenameFailed?
  }

  datatype Result<+T> = Success(value: T) | Failure(error: Error)

  /** The `error` result of a step that produces nothing else. */
  datatype Status = Done | Failed(error: Error)
}

=== FILE: filesystem.dfy ===
/** The part of the file system the tool sees: a finite map from paths to
    entries, with `os.Stat` as key lookup and `os.ReadDir` as a sorted listing
    of the keys one level below a directory. */
module FileSystem {
  import opened Optional
  import opened Text

  /** A path split the way `filepath.Dir` and `filepath.Base` split it: the
      directory as its components, and the base name. */
  datatype Path = Path(dir: seq<string>, name: string)

  /** A regular file (identified by an opaque inode number) or a directory. */
  datatype Entry = File(inode: nat) | Directory

  type Tree = map<Path, Entry>

  /** `os.Stat`: the entry at `p`, if there is one. */
  function Get(t: Tree, p: Path): Option<Entry> {
    if p in t then Some(t[p]) else None
  }

  predicate IsDir(t: Tree, p: Path) {
    p in t && t[p].Directory?
  }

  /** The directory that `p` names, as the `dir` of the paths inside it. */
  function Inner(p: Path): seq<string> {
    p.dir + [p.name]
  }

  /** `filepath.Join(p, name)` for a directory `p`. */
  function Child(p: Path, name: string): Path {
    Path(Inner(p), name)
  }

  /** `filepath.Join(filepath.Dir(p), name)`: `name` in the directory of `p`. */
  function Sibling(p: Path, name: string): Path {
    Path(p.dir, name)
  }

  /** `os.ReadDir(q)` reduced to names: every entry directly inside `q`, once
      each, sorted by name. */
  function ListDir(t: Tree, q: Path): (names: seq<string>)
    ensures Ascending(names)
    ensures forall n :: n in names <==> Child(q, n) in t
  {
    var inside := set k | k in t && k.dir == Inner(q) :: k.name;
    assert forall n :: n in inside <==> Child(q, n) in t by {
      forall n | n in inside
        ensures Child(q, n) in t
      {
        var k :| k in t && k.dir == Inner(q) && k.name == n;
        assert k == Child(q, n);
      }
    }
    Sorted(inside)
  }

  /** The paths of the entries `ListDir` names, in the same order. */
  function Entries(t: Tree, q: Path): (es: seq<Path>)
    ensures |es| == |ListDir(t, q)|
    ensures forall i :: 0 <= i < |es| ==> es[i] == Child(q, ListDir(t, q)[i])
    ensures forall p :: p in es <==> p in t && p.dir == Inner(q)
  {
    var names := ListDir(t, q);
    var es := seq(|names|, i requires 0 <= i < |names| => Child(q, names[i]));
    assert forall p :: p in t && p.dir == Inner(q) ==> p in es by {
      forall p | p in t && p.dir == Inner(q)
        ensures p in es
      {
        assert p == Child(q, p.name);
        var i :| 0 <= i < |names| && names[i] == p.name;
        assert es[i] == p;
      }
    }
    es
  }

  /** `os.Rename(src, dst)` on a target that does not exist: the entry at `src`
      now sits at `dst`. */
  function Move(t: Tree, src: Path, dst: Path): (u: Tree)
    requires src in t
    ensures Get(u, dst) == Some(t[src])
    ensures src != dst ==> Get(u, src) == None
    ensures forall k :: k != src && k != dst ==> Get(u, k) == Get(t, k)
  {
    (t - {src})[dst := t[src]]
  }

  /** The directories that hold at least one entry. */
  function Parents(t: Tree): set<seq<string>> {
    set k | k in t :: k.dir
  }

  /** Every entry sits fewer than `bound` directories deep: the measure on
      which recursive descent terminates. */
  predicate Bounded(t: Tree, bound: nat) {
    forall k :: k in t ==> |k.dir| < bound
  }

  /** The entries directly inside the directory `d`. */
  function Within(t: Tree, d: seq<string>): map<Path, Entry> {
    map k | k in t && k.dir == d :: t[k]
  }

  /** The names under which `m` holds the entry `e`: more than one when
      several names share an inode. */
  function Holders(m: map<Path, Entry>, e: Entry): set<Path> {
    set k | k in m && m[k] == e
  }

  /** `u` differs from `t` only by files renamed within their directories:
      the same directories; in every directory as many entries as before,
      holding the same set of entries, each entry under as many names as
      before; and so overall the same number of entries, the same entries,
      and no entry in a directory that held none. */
  ghost predicate OnlyRenames(t: Tree, u: Tree) {
    && (forall k :: IsDir(t, k) <==> IsDir(u, k))
    && (forall d :: |Within(u, d)| == |Within(t, d)| && Within(u, d).Values == Within(t, d).Values)
    && (forall d, e :: |Holders(Within(u, d), e)| == |Holders(Within(t, d), e)|)
    && |u| == |t|
    && u.Values == t.Values
    && Parents(u) == Parents(t)
  }

  /** Two renaming steps in a row are one renaming step. */
  lemma RenamesCompose(t: Tree, u: Tree, v: Tree)
    requires OnlyRenames(t, u) && OnlyRenames(u, v)
    ensures OnlyRenames(t, v)
  {
    forall d
      ensures |Within(v, d)| == |Within(t, d)| && Within(v, d).Values == Within(t, d).Values
    {
      assert |Within(u, d)| == |Within(t, d)| && Within(u, d).Values == Within(t, d).Values;
    }
    forall d, e
      ensures |Holders(Within(v, d), e)| == |Holders(Within(t, d), e)|
    {
      assert |Holders(Within(u, d), e)| == |Holders(Within(t, d), e)|;
    }
  }

  /** Every finite tree has some depth bound, so requiring one excludes no
      file system. */
  lemma {:induction false} BoundExists(t: Tree)
    ensures exists bound :: Bounded(t, bound)
    decreases |t|
  {
    if t != map[] {
      var k :| k in t;
      var rest := t - {k};
      assert rest.Keys == t.Keys - {k};
      assert |rest| < |t| by {
        assert |rest.Keys| == |t.Keys| - 1;
      }
      BoundExists(rest);
      var b: nat :| Bounded(rest, b);
      var b': nat := if |k.dir| < b then b else |k.dir| + 1;
      assert Bounded(t, b') by {
        forall j | j in t
          ensures |j.dir| < b'
        {
          if j != k {
            assert j in rest;
            assert |j.dir| < b;
          }
        }
      }
    } else {
      assert Bounded(t, 0);
    }
  }

  /** A renaming step keeps every entry within the same depth bound. */
  lemma BoundedPreserved(t: Tree, u: Tree, bound: nat)
    requires Bounded(t, bound) && OnlyRenames(t, u)
    ensures Bounded(u, bound)
  {
    forall k | k in u
      ensures |k.dir| < bound
    {
      assert k.dir in Parents(u);
      var j :| j in t && j.dir == k.dir;
    }
  }

  /** A move to a free key keeps, for every entry, the number of names
      holding it. */
  lemma MoveKeepsHolders(t: map<Path, Entry>, src: Path, dst: Path, e: Entry)
    requires src in t && dst !in t
    ensures |Holders(Move(t, src, dst), e)| == |Holders(t, e)|
  {
    var u := Move(t, src, dst);
    if t[src] == e {
      assert Holders(u, e) == Holders(t, e) - {src} + {dst};
      assert |Holders(t, e) - {src}| == |Holders(t, e)| - 1;
    } else {
      assert Holders(u, e) == Holders(t, e);
    }
  }

  /** A move to a free name in the same directory keeps, in every
      directory, the number of names holding each entry. */
  lemma MoveKeepsNames(t: Tree, src: Path, dst: Path)
    requires src in t && dst !in t && dst.dir == src.dir
    ensures forall d, e :: |Holders(Within(Move(t, src, dst), d), e)| == |Holders(Within(t, d), e)|
  {
    var u := Move(t, src, dst);
    forall d, e
      ensures |Holders(Within(u, d), e)| == |Holders(Within(t, d), e)|
    {
      if d == src.dir {
        assert Within(u, d) == Move(Within(t, d), src, dst);
        MoveKeepsHolders(Within(t, d), src, dst, e);
      } else {
        assert Within(u, d) == Within(t, d);
      }
    }
  }

  /** A move to a free key keeps the number of entries and the set of
      entries. */
  lemma MoveKeeps(t: Tree, src: Path, dst: Path)
    requires src in t && dst !in t
    ensures |Move(t, src, dst)| == |t|
    ensures Move(t, src, dst).Values == t.Values
  {
    var u := Move(t, src, dst);
    assert u.Keys == t.Keys - {src} + {dst};
    assert |u.Keys| == |t.Keys| by {
      assert |t.Keys - {src}| == |t.Keys| - 1;
    }
    forall v | v in t.Values
      ensures v in u.Values
    {
      var k :| k in t && t[k] == v;
      if k == src {
        assert u[dst] == v;
      } else {
        assert u[k] == v;
      }
    }
    forall v | v in u.Values
      ensures v in t.Values
    {
      var k :| k in u && u[k] == v;
      if k == dst {
        assert t[src] == v;
      } else {
        assert t[k] == v;
      }
    }
  }

  /** Renaming a file to a free name in its own directory is such a step. */
  lemma MoveOnlyRenames(t: Tree, src: Path, dst: Path)
    requires src in t && t[src].File?
    requires dst !in t && dst.dir == src.dir
    ensures OnlyRenames(t, Move(t, src, dst))
  {
    var u := Move(t, src, dst);
    MoveKeeps(t, src, dst);
    forall d
      ensures |Within(u, d)| == |Within(t, d)| && Within(u, d).Values == Within(t, d).Values
    {
      if d == src.dir {
        assert Within(u, d) == Move(Within(t, d), src, dst);
        MoveKeeps(Within(t, d), src, dst);
      } else {
        assert Within(u, d) == Within(t, d);
      }
    }
    MoveKeepsNames(t, src, dst);
    assert Parents(u) == Parents(t) by {
      forall d | d in Parents(t)
        ensures d in Parents(u)
      {
        var k :| k in t && k.dir == d;
        if k == src {
          assert dst in u;
        } else {
          assert k in u;
        }
      }
      forall d | d in Parents(u)
        ensures d in Parents(t)
      {
        var k :| k in u && k.dir == d;
        if k == dst {
          assert src in t;
        } else {
          assert k in t;
        }
      }
    }
    forall k
      ensures IsDir(t, k) <==> IsDir(u, k)
    {
      if k != src && k != dst {
        assert Get(u, k) == Get(t, k);
      }
    }
  }
}

=== FILE: optional.dfy ===
/** A value that may be absent: a missing map key, a regular expression that
    compiles without a diagnostic, a glob pattern that does not parse. */
module Optional {

  datatype Option<+T> = None | Some(value: T)
}

=== FILE: pattern.dfy ===
/** The three fatal front-end steps of `run`: checking the positional
    arguments, splitting the `s/old/new/` pattern, and compiling the search
    expression. The regular-expression engine is a parameter. */
module Pattern {
  import opened Optional
  import opened Text
  import opened Errors

  /** The positional arguments: the pattern, then the file or glob arguments. */
  datatype Invocation = Invocation(pattern: string, files: seq<string>)

  /** `validateArgs`: a pattern and at least one file argument, in order. */
  function ValidateArgs(args: seq<string>): (r: Result<Invocation>)
    ensures |args| == 0 ==> r == Failure(PatternMissing)
    ensures |args| == 1 ==> r == Failure(FilesMissing)
    ensures r.Success? <==> |args| >= 2
    ensures r.Success? ==> [r.value.pattern] + r.value.files == args
  {
    if |args| < 1 then Failure(PatternMissing)
    else if |args| < 2 then Failure(FilesMissing)
    else Success(Invocation(args[0], args[1..]))
  }

  /** What the pattern asks for: a search expression and a replacement
      template with backslash-dots already unescaped. */
  datatype Substitution = Substitution(search: string, replacement: string)

  /** `parsePattern`: strip "s/", split the rest on '/', keep the first piece
      as the search expression and the second, unescaped, as the replacement.
      Pieces after the second are dropped. */
  function ParsePattern(pattern: string): (r: Result<Substitution>)
    ensures !HasPrefix(pattern, "s/") ==> r == Failure(MissingPrefix)
    ensures HasPrefix(pattern, "s/") ==> (r.Failure? <==> '/' !in pattern[2..])
    ensures HasPrefix(pattern, "s/") && r.Failure? ==> r.error == MissingSeparator
    ensures r.Success? ==> '/' !in r.value.search && HasPrefix(pattern, "s/" + r.value.search + "/")
    ensures r.Success? ==> '/' !in r.value.replacement
  {
    if !HasPrefix(pattern, "s/") then Failure(MissingPrefix)
    else
      var parts := Split(pattern[2..], '/');
      if |parts| < 2 then Failure(MissingSeparator)
      else
        SearchPrefix(pattern);
        assert '/' !in parts[1];
        Success(Substitution(parts[0], UnescapeDots(parts[1])))
  }

  /** The first piece of a successful split, with "s/" before it and '/'
      after it, begins the pattern. */
  lemma SearchPrefix(pattern: string)
    requires HasPrefix(pattern, "s/")
    requires |Split(pattern[2..], '/')| >= 2
    ensures HasPrefix(pattern, "s/" + Split(pattern[2..], '/')[0] + "/")
  {
    var rest := pattern[2..];
    SplitHead(rest, '/');
    PrefixExtend("s/", rest, Split(rest, '/')[0] + "/");
    assert pattern == "s/" + rest;
  }

  /** Every successful parse has this shape: "s/", a search expression, '/', a
      replacement segment, then nothing or '/' followed by anything at all.
      The result is the search expression and the unescaped segment; whatever
      follows the segment is ignored. */
  lemma {:induction false} ParsePatternSegments(search: string, segment: string, tail: string)
    requires '/' !in search && '/' !in segment
    requires tail == [] || tail[0] == '/'
    ensures ParsePattern("s/" + search + "/" + segment + tail)
         == Success(Substitution(search, UnescapeDots(segment)))
  {
    var pattern := "s/" + search + "/" + segment + tail;
    var rest := search + "/" + segment + tail;
    assert pattern[..2] == "s/" && pattern[2..] == rest;
    var parts := SplitSegments(search, segment, tail);
    assert Split(rest, '/') == parts;
  }

  /** The pieces of `search/segment` followed by a `tail` that is empty or
      starts with '/' begin with `search` and `segment`. */
  lemma SplitSegments(search: string, segment: string, tail: string) returns (parts: seq<string>)
    requires '/' !in search && '/' !in segment
    requires tail == [] || tail[0] == '/'
    ensures |parts| >= 2 && parts[0] == search && parts[1] == segment
    ensures Split(search + "/" + segment + tail, '/') == parts
  {
    var rest := segment + tail;
    assert search + "/" + segment + tail == search + ['/'] + rest;
    SplitCons(search, rest, '/');
    SplitTail(segment, tail);
    parts := [search] + Split(rest, '/');
  }

  /** A separator-free segment followed by nothing or by '/' is split off
      whole. */
  lemma SplitTail(segment: string, tail: string)
    requires '/' !in segment
    requires tail == [] || tail[0] == '/'
    ensures |Split(segment + tail, '/')| >= 1 && Split(segment + tail, '/')[0] == segment
  {
    if tail == [] {
      assert segment + tail == segment;
    } else {
      assert segment + tail == segment + ['/'] + tail[1..];
      SplitCons(segment, tail[1..], '/');
    }
  }

  /** A compiled regular expression, identified by the source it came from. */
  datatype Regex = Regex(source: string)

  /** Go's `regexp` package, left uninterpreted: `diagnose` gives the compile
      error of an expression, if any; `replaceAll` is
      `re.ReplaceAllString(name, template)`. */
  datatype RegexEngine = RegexEngine(
    diagnose: string -> Option<string>,
    replaceAll: (Regex, string, string) -> string)

  /** The inline flag Go's syntax uses for case-insensitive matching. */
  const CaseInsensitive: string := "(?i)"

  /** `compilePattern`: prefix the case-insensitivity flag when asked, then
      compile; a compile error is fatal and carries the engine's diagnostic. */
  function CompilePattern(search: string, ignoreCase: bool, engine: RegexEngine): (r: Result<Regex>)
    ensures r.Success? ==> HasPrefix(r.value.source, CaseInsensitive) || !ignoreCase
    ensures r.Success? ==> |r.value.source| == |search| + (if ignoreCase then |CaseInsensitive| else 0)
    ensures r.Success? ==> r.value.source[|r.value.source| - |search|..] == search
    ensures r.Success? <==> engine.diagnose(if ignoreCase then CaseInsensitive + search else search).None?
    ensures r.Failure? ==> r.error == InvalidPattern(engine.diagnose(if ignoreCase then CaseInsensitive + search else search).value)
  {
    var expression := if ignoreCase then CaseInsensitive + search else search;
    match engine.diagnose(expression)
    case Some(message) => Failure(InvalidPattern(message))
    case None => Success(Regex(expression))
  }
}

=== FILE: renamer.dfy ===
/** The back end of `run`: expand each file argument, then rename every
    matched file whose base name the substitution changes, descending into
    directories only in recursive mode. One path's failure is printed as a
    warning and the traversal goes on; only a malformed glob ends the run. */
module Renamer {
  import opened Optional
  import Text
  import opened FileSystem
  import opened Errors
  import opened Pattern

  /** `RenameOptions`: the flags -n, -r, -i and -v. */
  datatype Options = Options(dryRun: bool, recursive: bool, ignoreCase: bool, showChanges: bool)

  /** The operating system beyond the tree: `filepath.Glob` (which sees the
      tree as it is when the argument is reached), listings the OS refuses,
      and renames the OS refuses. */
  datatype Os = Os(
    glob: (Tree, string) -> Option<seq<Path>>,
    readDirDenied: Path -> bool,
    renameRefused: (Path, Path) -> bool)

  /** What stays fixed while the files are processed: the flags, the new base
      name for each old one (the compiled expression applied with the
      replacement template), and the OS. */
  datatype Job = Job(opts: Options, subst: string -> string, os: Os)

  datatype Event =
    | Preview(src: Path, dst: Path)      // "src -> dst" on standard output
    | Warning(path: Path, error: Error)  // "Warning: skipping path: error" on standard error

  /** A tree after the step, what it printed, and the error it returned. */
  datatype Step = Step(tree: Tree, log: seq<Event>, status: Status)

  /** Whether a `src -> dst` line is printed for a rename. */
  predicate Announces(opts: Options) {
    opts.showChanges || opts.dryRun
  }

  /** Every line in `log` is one this job can print: a rename line only when
      asked for, and only for a changed base name in the same directory; a
      warning only for an error about one path. */
  ghost predicate LogFits(log: seq<Event>, job: Job) {
    forall e :: e in log ==>
      match e
      case Preview(src, dst) =>
        Announces(job.opts) && dst == Sibling(src, job.subst(src.name)) && dst.name != src.name
      case Warning(_, error) => PerPath(error)
  }

  /** What every traversal step keeps: the tree changes only by renames and
      stays within the depth bound, a dry run changes nothing, and the log fits. */
  ghost predicate Keeps(t: Tree, r: Step, job: Job, bound: nat) {
    && OnlyRenames(t, r.tree)
    && Bounded(r.tree, bound)
    && (job.opts.dryRun ==> r.tree == t)
    && LogFits(r.log, job)
  }

  /** The termination measure of the descent: how many levels may still lie
      below a directory. */
  ghost function Rank(bound: nat, dir: seq<string>): nat {
    if |dir| < bound then bound - |dir| else 0
  }

  /** `renameFile` for a path that is not a directory. */
  function RenameFile(t: Tree, p: Path, job: Job): (r: Step)
    requires !IsDir(t, p)
    ensures job.subst(p.name) == p.name ==> r == Step(t, [], Done)
    ensures var target := Sibling(p, job.subst(p.name));
      target != p && target in t ==> r == Step(t, [], Failed(TargetExists(target)))
    ensures var target := Sibling(p, job.subst(p.name));
      r.log != [] <==> target != p && target !in t && Announces(job.opts)
    ensures r.log != [] ==> r.log == [Preview(p, Sibling(p, job.subst(p.name)))]
    ensures var target := Sibling(p, job.subst(p.name));
      r.tree != t <==> target != p && target !in t && !job.opts.dryRun && p in t && !job.os.renameRefused(p, target)
    ensures var target := Sibling(p, job.subst(p.name));
      r.tree != t ==> r.tree == Move(t, p, target) && r.status == Done
    ensures var target := Sibling(p, job.subst(p.name));
      target != p && target !in t && job.opts.dryRun ==> r.status == Done
    ensures var target := Sibling(p, job.subst(p.name));
      target != p && target !in t && !job.opts.dryRun && (p !in t || job.os.renameRefused(p, target))
      ==> r.status == Failed(RenameFailed(p, target))
    ensures r.status.Failed? ==> r.tree == t && PerPath(r.status.error)
    ensures OnlyRenames(t, r.tree)
    ensures LogFits(r.log, job)
  {
    var newName := job.subst(p.name);
    if newName == p.name then Step(t, [], Done)
    else
      var target := Sibling(p, newName);
      if target in t then Step(t, [], Failed(TargetExists(target)))
      else
        var shown := if Announces(job.opts) then [Preview(p, target)] else [];
        if job.opts.dryRun then Step(t, shown, Done)
        else if p !in t || job.os.renameRefused(p, target) then Step(t, shown, Failed(RenameFailed(p, target)))
        else
          MoveOnlyRenames(t, p, target);
          assert Get(Move(t, p, target), p) == None;
          Step(Move(t, p, target), shown, Done)
  }

  /** `processFile`: stat the path; a directory is skipped unless the run is
      recursive, anything else goes to `RenameFile`. */
  function ProcessFile(t: Tree, p: Path, job: Job, ghost bound: nat): (r: Step)
    requires Bounded(t, bound)
    ensures Keeps(t, r, job, bound)
    ensures p !in t ==> r == Step(t, [], Failed(StatFailed(p)))
    ensures IsDir(t, p) && !job.opts.recursive ==> r == Step(t, [], Done)
    ensures IsDir(t, p) && job.opts.recursive ==> r == ProcessDirectory(t, p, job, bound)
    ensures p in t && !IsDir(t, p) ==> r == RenameFile(t, p, job)
    ensures !job.opts.recursive ==> forall k: Path :: k.dir != p.dir ==> Get(r.tree, k) == Get(t, k)
    ensures r.status.Failed? ==> PerPath(r.status.error)
    decreases Rank(bound, p.dir), 2, 0
  {
    if p !in t then Step(t, [], Failed(StatFailed(p)))
    else if t[p].Directory? then
      if !job.opts.recursive then Step(t, [], Done)
      else ProcessDirectory(t, p, job, bound)
    else
      var r := RenameFile(t, p, job);
      BoundedPreserved(t, r.tree, bound);
      r
  }

  /** `processDirectory`: list the directory and process each entry in name
      order, turning each entry's failure into a warning. */
  function ProcessDirectory(t: Tree, q: Path, job: Job, ghost bound: nat): (r: Step)
    requires Bounded(t, bound)
    ensures Keeps(t, r, job, bound)
    ensures r.status.Failed? <==> !IsDir(t, q) || job.os.readDirDenied(q)
    ensures r.status.Failed? ==> r == Step(t, [], Failed(ReadDirFailed(q)))
    ensures IsDir(t, q) && !job.os.readDirDenied(q) ==>
      (forall p :: p in Entries(t, q) ==> Rank(bound, p.dir) < Rank(bound, q.dir))
      && r == ProcessPaths(t, Entries(t, q), job, bound, Rank(bound, q.dir))
    decreases Rank(bound, q.dir), 1, 0
  {
    if !IsDir(t, q) || job.os.readDirDenied(q) then Step(t, [], Failed(ReadDirFailed(q)))
    else ProcessPaths(t, Entries(t, q), job, bound, Rank(bound, q.dir))
  }

  /** The warning printed when processing `p` ended with `status`, if any. */
  function Warned(p: Path, status: Status): seq<Event> {
    if status.Failed? then [Warning(p, status.error)] else []
  }

  /** The loop shared by `processFiles` (over one glob's matches) and
      `processDirectory` (over a listing): process each path in order; a
      failure becomes a warning naming the path, and the loop continues. */
  function ProcessPaths(t: Tree, ps: seq<Path>, job: Job, ghost bound: nat, ghost ceiling: nat): (r: Step)
    requires Bounded(t, bound)
    requires forall p :: p in ps ==> Rank(bound, p.dir) < ceiling
    ensures Keeps(t, r, job, bound)
    ensures r.status == Done
    decreases ceiling, 0, |ps|
  {
    if ps == [] then Step(t, [], Done)
    else
      var first := ProcessFile(t, ps[0], job, bound);
      var rest := ProcessPaths(first.tree, ps[1..], job, bound, ceiling);
      RenamesCompose(t, first.tree, rest.tree);
      Step(rest.tree, first.log + Warned(ps[0], first.status) + rest.log, Done)
  }

  /** `processFiles`: expand each argument as a glob against the current tree
      and process its matches; a malformed glob ends the run at once, after
      whatever the earlier arguments did. */
  function ProcessFiles(t: Tree, globs: seq<string>, job: Job, ghost bound: nat): (r: Step)
    requires Bounded(t, bound)
    ensures Keeps(t, r, job, bound)
    ensures r.status.Failed? ==> r.status.error.GlobFailed? && r.status.error.glob in globs
    ensures globs != [] && job.os.glob(t, globs[0]).None? ==> r == Step(t, [], Failed(GlobFailed(globs[0])))
    ensures (forall u, g :: g in globs ==> job.os.glob(u, g).Some?) ==> r.status == Done
    decreases |globs|
  {
    if globs == [] then Step(t, [], Done)
    else
      match job.os.glob(t, globs[0])
      case None => Step(t, [], Failed(GlobFailed(globs[0])))
      case Some(matches) =>
        var done := ProcessPaths(t, matches, job, bound, bound + 1);
        var rest := ProcessFiles(done.tree, globs[1..], job, bound);
        RenamesCompose(t, done.tree, rest.tree);
        Step(rest.tree, done.log + rest.log, rest.status)
  }

  /** The job a run hands to the traversal: each base name is rewritten by
      `re.ReplaceAllString(name, replacement)`. */
  function Substituting(opts: Options, engine: RegexEngine, re: Regex, replacement: string, os: Os): (job: Job)
    ensures job.opts == opts && job.os == os
    ensures forall name :: job.subst(name) == engine.replaceAll(re, name, replacement)
  {
    Job(opts, name => engine.replaceAll(re, name, replacement), os)
  }

  /** `run`: validate the arguments, parse the pattern, compile the search
      expression, then process the file arguments. Errors before the
      traversal are fatal and touch nothing. */
  function Run(args: seq<string>, opts: Options, engine: RegexEngine, os: Os, t: Tree, ghost bound: nat): (r: Step)
    requires Bounded(t, bound)
    ensures r.status.Failed? ==> Fatal(r.status.error)
    ensures r.status.Failed? && !r.status.error.GlobFailed? ==> r.tree == t && r.log == []
    ensures ValidateArgs(args).Failure? ==> r == Step(t, [], Failed(ValidateArgs(args).error))
    ensures |args| >= 2 && ParsePattern(args[0]).Failure? ==> r == Step(t, [], Failed(ParsePattern(args[0]).error))
    ensures |args| >= 2 && ParsePattern(args[0]).Success? ==>
      var sub := ParsePattern(args[0]).value;
      var compiled := CompilePattern(sub.search, opts.ignoreCase, engine);
      && (compiled.Failure? ==> r == Step(t, [], Failed(compiled.error)))
      && (compiled.Success? ==>
            r == ProcessFiles(t, args[1..], Substituting(opts, engine, compiled.value, sub.replacement, os), bound))
    ensures |args| >= 2 && !Text.HasPrefix(args[0], "s/") ==> r == Step(t, [], Failed(MissingPrefix))
    ensures OnlyRenames(t, r.tree)
    ensures opts.dryRun ==> r.tree == t
    ensures forall e :: e in r.log && e.Preview? ==>
      e.dst.dir == e.src.dir && e.dst.name != e.src.name && Announces(opts)
  {
    match ValidateArgs(args)
    case Failure(e) => Step(t, [], Failed(e))
    case Success(invocation) =>
      match ParsePattern(invocation.pattern)
      case Failure(e) => Step(t, [], Failed(e))
      case Success(sub) =>
        match CompilePattern(sub.search, opts.ignoreCase, engine)
        case Failure(e) => Step(t, [], Failed(e))
        case Success(re) =>
          ProcessFiles(t, invocation.files, Substituting(opts, engine, re, sub.replacement, os), bound)
  }
}

=== FILE: scenarios.dfy ===
/** End-to-end runs on small concrete trees. The regular-expression engine
    and the OS stay parameters; each lemma fixes only the answers the run
    asks of them. */
module Scenarios {
  import opened Optional
  import opened Text
  import opened FileSystem
  import opened Errors
  import opened Pattern
  import opened Renamer
  import opened Traversal

  const Quiet := Options(false, false, false, false)

  /** The two patterns below, assembled from their pieces. */
  lemma SpelledOldNew()
    ensures "s/" + "old" + "/" + "new" + "/" == "s/old/new/"
  {
  }

  lemma SpelledUpperOldNew()
    ensures "s/" + "OLD" + "/" + "new" + "/" == "s/OLD/new/"
  {
  }

  /** "s/old/new/" parses to the search "old" and the replacement "new". */
  lemma ParseOldNew()
    ensures ParsePattern("s/old/new/") == Success(Substitution("old", "new"))
  {
    ParsePatternSegments("old", "new", "/");
    SpelledOldNew();
    NoBackslash("new");
  }

  function Before(): Tree {
    map[Path([], "notes.txt") := File(1), Path([], "report_old.txt") := File(2)]
  }

  function After(): Tree {
    map[Path([], "notes.txt") := File(1), Path([], "report_new.txt") := File(2)]
  }

  /** The two per-file steps of the run below. */
  lemma TwoFileSteps(job: Job)
    requires !job.opts.dryRun && !job.opts.showChanges
    requires job.subst("notes.txt") == "notes.txt"
    requires job.subst("report_old.txt") == "report_new.txt"
    requires !job.os.renameRefused(Path([], "report_old.txt"), Path([], "report_new.txt"))
    ensures ProcessFile(Before(), Path([], "notes.txt"), job, 1) == Step(Before(), [], Done)
    ensures ProcessFile(Before(), Path([], "report_old.txt"), job, 1) == Step(After(), [], Done)
  {
    var report := Path([], "report_old.txt");
    var renamed := Path([], "report_new.txt");
    assert renamed !in Before();
    assert Move(Before(), report, renamed) == After();
  }

  /** The loop over the glob's two matches. */
  lemma TwoFileLoop(job: Job)
    requires !job.opts.dryRun && !job.opts.showChanges
    requires job.subst("notes.txt") == "notes.txt"
    requires job.subst("report_old.txt") == "report_new.txt"
    requires !job.os.renameRefused(Path([], "report_old.txt"), Path([], "report_new.txt"))
    requires job.os.glob(Before(), "*.txt") == Some([Path([], "notes.txt"), Path([], "report_old.txt")])
    ensures ProcessFiles(Before(), ["*.txt"], job, 1) == Step(After(), [], Done)
  {
    var ps := [Path([], "notes.txt"), Path([], "report_old.txt")];
    TwoFileSteps(job);
    PathsUnfold(Before(), ps, job, 1, 2);
    assert ps[1..] == [Path([], "report_old.txt")];
    PathsOne(Before(), Path([], "report_old.txt"), job, 1, 2);
    assert ProcessPaths(Before(), ps, job, 1, 2) == Step(After(), [], Done);
    FilesOne(Before(), "*.txt", ps, job, 1);
  }

  /** Renaming `report_old.txt` with "s/old/new/" next to `notes.txt`: the
      matching file gets its new name, the other is left alone, nothing is
      printed and the run succeeds. */
  lemma RenamesOnlyTheMatch(engine: RegexEngine, os: Os)
    requires engine.diagnose("old") == None
    requires engine.replaceAll(Regex("old"), "report_old.txt", "new") == "report_new.txt"
    requires engine.replaceAll(Regex("old"), "notes.txt", "new") == "notes.txt"
    requires os.glob(Before(), "*.txt") == Some([Path([], "notes.txt"), Path([], "report_old.txt")])
    requires !os.renameRefused(Path([], "report_old.txt"), Path([], "report_new.txt"))
    ensures Run(["s/old/new/", "*.txt"], Quiet, engine, os, Before(), 1) == Step(After(), [], Done)
  {
    ParseOldNew();
    assert ValidateArgs(["s/old/new/", "*.txt"]) == Success(Invocation("s/old/new/", ["*.txt"]));
    assert CompilePattern("old", false, engine) == Success(Regex("old"));
    var job := Substituting(Quiet, engine, Regex("old"), "new", os);
    TwoFileLoop(job);
  }

  /** The loop over the two matches under -n. */
  lemma DryRunLoop(job: Job)
    requires job.opts.dryRun
    requires job.subst("notes.txt") == "notes.txt"
    requires job.subst("report_old.txt") == "report_new.txt"
    ensures ProcessPaths(Before(), [Path([], "notes.txt"), Path([], "report_old.txt")], job, 1, 2)
         == Step(Before(), [Preview(Path([], "report_old.txt"), Path([], "report_new.txt"))], Done)
  {
    var ps := [Path([], "notes.txt"), Path([], "report_old.txt")];
    assert Path([], "report_new.txt") !in Before();
    assert ProcessFile(Before(), ps[0], job, 1) == Step(Before(), [], Done);
    PathsUnfold(Before(), ps, job, 1, 2);
    assert ps[1..] == [ps[1]];
    PathsOne(Before(), ps[1], job, 1, 2);
  }

  /** The same two files under -n: the rename line is printed and nothing
      on disk changes. */
  lemma DryRunOnlyPreviews(job: Job)
    requires job.opts.dryRun
    requires job.subst("notes.txt") == "notes.txt"
    requires job.subst("report_old.txt") == "report_new.txt"
    requires job.os.glob(Before(), "*.txt") == Some([Path([], "notes.txt"), Path([], "report_old.txt")])
    ensures ProcessFiles(Before(), ["*.txt"], job, 1)
         == Step(Before(), [Preview(Path([], "report_old.txt"), Path([], "report_new.txt"))], Done)
  {
    var ps := [Path([], "notes.txt"), Path([], "report_old.txt")];
    FilesOne(Before(), "*.txt", ps, job, 1);
    DryRunLoop(job);
  }

  /** "s/OLD/new/" with -i compiles the flagged expression "(?i)OLD". */
  lemma IgnoreCaseFront(engine: RegexEngine)
    requires engine.diagnose("(?i)OLD") == None
    ensures ValidateArgs(["s/OLD/new/", "old_file.txt"]) == Success(Invocation("s/OLD/new/", ["old_file.txt"]))
    ensures ParsePattern("s/OLD/new/") == Success(Substitution("OLD", "new"))
    ensures CompilePattern("OLD", true, engine) == Success(Regex("(?i)OLD"))
  {
    ParseUpperOldNew();
    CompileFlagged(engine);
  }

  lemma CompileFlagged(engine: RegexEngine)
    requires engine.diagnose("(?i)OLD") == None
    ensures CompilePattern("OLD", true, engine) == Success(Regex("(?i)OLD"))
  {
    assert CaseInsensitive + "OLD" == "(?i)OLD";
  }

  lemma ParseUpperOldNew()
    ensures ParsePattern("s/OLD/new/") == Success(Substitution("OLD", "new"))
  {
    ParsePatternSegments("OLD", "new", "/");
    SpelledUpperOldNew();
    NoBackslash("new");
  }

  /** A one-file run renaming `old_file.txt` to `new_file.txt`. */
  lemma OneFileRename(job: Job)
    requires !job.opts.dryRun && !job.opts.showChanges
    requires job.subst("old_file.txt") == "new_file.txt"
    requires job.os.glob(map[Path([], "old_file.txt") := File(1)], "old_file.txt") == Some([Path([], "old_file.txt")])
    requires !job.os.renameRefused(Path([], "old_file.txt"), Path([], "new_file.txt"))
    ensures ProcessFiles(map[Path([], "old_file.txt") := File(1)], ["old_file.txt"], job, 1)
         == Step(map[Path([], "new_file.txt") := File(1)], [], Done)
  {
    var original := Path([], "old_file.txt");
    var renamed := Path([], "new_file.txt");
    var t := map[original := File(1)];
    assert Move(t, original, renamed) == map[renamed := File(1)];
    PathsOne(t, original, job, 1, 2);
    assert ["old_file.txt"][1..] == [];
  }

  /** "s/OLD/new/" with -i: the engine is handed "(?i)OLD", and whatever it
      makes of `old_file.txt` under that expression is the new name. */
  lemma IgnoreCaseCompilesFlaggedExpression(engine: RegexEngine, os: Os)
    requires engine.diagnose("(?i)OLD") == None
    requires engine.replaceAll(Regex("(?i)OLD"), "old_file.txt", "new") == "new_file.txt"
    requires os.glob(map[Path([], "old_file.txt") := File(1)], "old_file.txt") == Some([Path([], "old_file.txt")])
    requires !os.renameRefused(Path([], "old_file.txt"), Path([], "new_file.txt"))
    ensures Run(["s/OLD/new/", "old_file.txt"], Options(false, false, true, false), engine, os,
                map[Path([], "old_file.txt") := File(1)], 1)
         == Step(map[Path([], "new_file.txt") := File(1)], [], Done)
  {
    IgnoreCaseFront(engine);
    OneFileRename(Substituting(Options(false, false, true, false), engine, Regex("(?i)OLD"), "new", os));
  }

  function Clash(): Tree {
    map[Path([], "ab.txt") := File(1), Path([], "ba.txt") := File(2)]
  }

  /** The two per-file steps of the colliding run below. */
  lemma CollisionSteps(job: Job)
    requires !job.opts.dryRun && !job.opts.showChanges
    requires job.subst("ab.txt") == "bb.txt" && job.subst("ba.txt") == "bb.txt"
    requires !job.os.renameRefused(Path([], "ab.txt"), Path([], "bb.txt"))
    ensures ProcessFile(Clash(), Path([], "ab.txt"), job, 1)
         == Step(map[Path([], "bb.txt") := File(1), Path([], "ba.txt") := File(2)], [], Done)
    ensures ProcessFile(map[Path([], "bb.txt") := File(1), Path([], "ba.txt") := File(2)], Path([], "ba.txt"), job, 1)
         == Step(map[Path([], "bb.txt") := File(1), Path([], "ba.txt") := File(2)], [], Failed(TargetExists(Path([], "bb.txt"))))
  {
    var ab := Path([], "ab.txt");
    var bb := Path([], "bb.txt");
    assert bb !in Clash();
    assert Move(Clash(), ab, bb) == map[bb := File(1), Path([], "ba.txt") := File(2)];
  }

  /** The loop over the two colliding matches. */
  lemma CollisionLoop(job: Job)
    requires !job.opts.dryRun && !job.opts.showChanges
    requires job.subst("ab.txt") == "bb.txt" && job.subst("ba.txt") == "bb.txt"
    requires !job.os.renameRefused(Path([], "ab.txt"), Path([], "bb.txt"))
    ensures ProcessPaths(Clash(), [Path([], "ab.txt"), Path([], "ba.txt")], job, 1, 2)
         == Step(map[Path([], "bb.txt") := File(1), Path([], "ba.txt") := File(2)],
                 [Warning(Path([], "ba.txt"), TargetExists(Path([], "bb.txt")))], Done)
  {
    var ba := Path([], "ba.txt");
    var ps := [Path([], "ab.txt"), ba];
    var middle := map[Path([], "bb.txt") := File(1), ba := File(2)];
    CollisionSteps(job);
    PathsUnfold(Clash(), ps, job, 1, 2);
    assert ps[1..] == [ba];
    PathsOne(middle, ba, job, 1, 2);
  }

  /** "s/a/b/" on `ab.txt` and `ba.txt`: both want the name `bb.txt`. The
      first gets it; the second is skipped with a warning and keeps its
      name, and the run still succeeds. */
  lemma CollisionIsAWarning(job: Job)
    requires !job.opts.dryRun && !job.opts.showChanges
    requires job.subst("ab.txt") == "bb.txt" && job.subst("ba.txt") == "bb.txt"
    requires !job.os.renameRefused(Path([], "ab.txt"), Path([], "bb.txt"))
    requires job.os.glob(Clash(), "*.txt") == Some([Path([], "ab.txt"), Path([], "ba.txt")])
    ensures ProcessFiles(Clash(), ["*.txt"], job, 1)
         == Step(map[Path([], "bb.txt") := File(1), Path([], "ba.txt") := File(2)],
                 [Warning(Path([], "ba.txt"), TargetExists(Path([], "bb.txt")))], Done)
  {
    FilesOne(Clash(), "*.txt", [Path([], "ab.txt"), Path([], "ba.txt")], job, 1);
    CollisionLoop(job);
  }

  function Nested(): Tree {
    map[Path([], "docs") := Directory, Path(["docs"], "old.txt") := File(1)]
  }

  /** The only entry of `docs` in `Nested()`. */
  lemma ListDocs()
    ensures ListDir(Nested(), Path([], "docs")) == ["old.txt"]
  {
    var docs := Path([], "docs");
    var names := ListDir(Nested(), docs);
    assert Child(docs, "old.txt") == Path(["docs"], "old.txt");
    assert "old.txt" in names;
    forall n | n in names
      ensures n == "old.txt"
    {
      assert Child(docs, n) in Nested();
    }
  }

  /** The rename of the file inside `docs`. */
  lemma NestedRename(job: Job)
    requires !job.opts.dryRun && !job.opts.showChanges
    requires job.subst("old.txt") == "new.txt"
    requires !job.os.renameRefused(Path(["docs"], "old.txt"), Path(["docs"], "new.txt"))
    ensures ProcessFile(Nested(), Path(["docs"], "old.txt"), job, 2)
         == Step(map[Path([], "docs") := Directory, Path(["docs"], "new.txt") := File(1)], [], Done)
  {
    var original := Path(["docs"], "old.txt");
    var renamed := Path(["docs"], "new.txt");
    assert renamed !in Nested();
    assert Move(Nested(), original, renamed) == map[Path([], "docs") := Directory, renamed := File(1)];
  }

  /** A directory matched by a glob: without -r neither it nor what it holds
      is touched; with -r the matching file inside is renamed. */
  lemma RecursionGating(job: Job)
    requires !job.opts.dryRun && !job.opts.showChanges
    requires job.subst("old.txt") == "new.txt"
    requires !job.os.readDirDenied(Path([], "docs"))
    requires !job.os.renameRefused(Path(["docs"], "old.txt"), Path(["docs"], "new.txt"))
    ensures !job.opts.recursive ==> ProcessFile(Nested(), Path([], "docs"), job, 2) == Step(Nested(), [], Done)
    ensures job.opts.recursive ==>
              ProcessFile(Nested(), Path([], "docs"), job, 2)
              == Step(map[Path([], "docs") := Directory, Path(["docs"], "new.txt") := File(1)], [], Done)
  {
    var docs := Path([], "docs");
    var original := Path(["docs"], "old.txt");
    var renamed := Path(["docs"], "new.txt");
    if job.opts.recursive {
      ListDocs();
      var entries := seq(1, i requires 0 <= i < 1 => Child(docs, ["old.txt"][i]));
      assert entries == [original];
      NestedRename(job);
      PathsOne(Nested(), original, job, 2, Rank(2, docs.dir));
    }
  }

  /** Two files trading directories is not a renaming step, even though the
      same directories hold the same number of entries and the tree holds the
      same entries overall. */
  lemma TradingDirectoriesIsNotARename()
    ensures !OnlyRenames(map[Path(["a"], "x") := File(1), Path(["b"], "y") := File(2)],
                         map[Path(["a"], "x") := File(2), Path(["b"], "y") := File(1)])
  {
    var t := map[Path(["a"], "x") := File(1), Path(["b"], "y") := File(2)];
    var u := map[Path(["a"], "x") := File(2), Path(["b"], "y") := File(1)];
    assert Within(t, ["a"]) == map[Path(["a"], "x") := File(1)];
    assert Within(u, ["a"]) == map[Path(["a"], "x") := File(2)];
    assert Within(t, ["a"])[Path(["a"], "x")] == File(1);
    assert File(1) in Within(t, ["a"]).Values;
    assert File(1) !in Within(u, ["a"]).Values;
  }

  /** Re-pointing one of two hard links at another file is not a renaming
      step, even though the directory keeps its names and the tree holds the
      same entries: inode 1 is left with one name instead of two. */
  lemma HardLinkRepointIsNotARename()
    ensures !OnlyRenames(map[Path([], "a") := File(1), Path([], "b") := File(1), Path([], "c") := File(2)],
                         map[Path([], "a") := File(1), Path([], "b") := File(2), Path([], "c") := File(2)])
  {
    var t := map[Path([], "a") := File(1), Path([], "b") := File(1), Path([], "c") := File(2)];
    var u := map[Path([], "a") := File(1), Path([], "b") := File(2), Path([], "c") := File(2)];
    assert Within(t, []) == t;
    assert Within(u, []) == u;
    assert Holders(t, File(1)) == {Path([], "a"), Path([], "b")};
    assert Holders(u, File(1)) == {Path([], "a")};
  }

  /** A replacement mixing a plain dot and a backslash-dot: `a.\.` becomes
      `a..`, as `strings.ReplaceAll` makes it. */
  lemma UnescapeMixed()
    ensures UnescapeDots("a.\\.") == "a.."
  {
    UnescapeAround("a.", "");
    NoBackslash("a.");
    NoBackslash("");
    assert "a." + "\\." + "" == "a.\\.";
    assert "a." + "." + "" == "a..";
  }
}

=== FILE: text.dfy ===
/** String operations the tool takes from Go's `strings` package, and Go's
    ordering of strings, which `os.ReadDir` uses to sort directory entries. */
module Text {

  /** `strings.HasPrefix(s, prefix)`. */
  predicate HasPrefix(s: string, prefix: string) {
    |prefix| <= |s| && s[..|prefix|] == prefix
  }

  /** Index of the first occurrence of `c` in `s`. */
  function FirstIndex(s: string, c: char): (i: nat)
    requires c in s
    ensures i < |s| && s[i] == c
    ensures c !in s[..i]
  {
    if s[0] == c then 0 else 1 + FirstIndex(s[1..], c)
  }

  /** The pieces `Split` cut out, glued back together with `sep` between them. */
  function Join(parts: seq<string>, sep: char): string
    requires |parts| >= 1
  {
    if |parts| == 1 then parts[0] else parts[0] + [sep] + Join(parts[1..], sep)
  }

  /** `strings.Split(s, string(sep))`: the maximal `sep`-free pieces of `s`, in
      order; an input without `sep` (the empty string included) is one piece. */
  function Split(s: string, sep: char): (parts: seq<string>)
    ensures |parts| >= 1
    ensures forall i :: 0 <= i < |parts| ==> sep !in parts[i]
    ensures Join(parts, sep) == s
    ensures |parts| == 1 <==> sep !in s
    decreases |s|
  {
    if sep !in s then [s]
    else
      var i := FirstIndex(s, sep);
      assert s == s[..i] + [sep] + s[i + 1..];
      [s[..i]] + Split(s[i + 1..], sep)
  }

  /** When the input has a separator, the first piece and the separator
      after it begin the input. */
  lemma SplitHead(s: string, sep: char)
    requires sep in s
    ensures HasPrefix(s, Split(s, sep)[0] + [sep])
  {
    var i := FirstIndex(s, sep);
    assert Split(s, sep)[0] == s[..i];
    assert s[..i + 1] == s[..i] + [sep];
  }

  /** A prefix stays a prefix when the same text is put in front of both. */
  lemma PrefixExtend(front: string, s: string, prefix: string)
    requires HasPrefix(s, prefix)
    ensures HasPrefix(front + s, front + prefix)
  {
    assert (front + s)[..|front + prefix|] == front + s[..|prefix|];
  }

  /** Split cuts at the first separator: a separator-free head followed by
      the separator is split off as the first piece. */
  lemma SplitCons(head: string, rest: string, sep: char)
    requires sep !in head
    ensures Split(head + [sep] + rest, sep) == [head] + Split(rest, sep)
  {
    var s := head + [sep] + rest;
    assert s[|head|] == sep;
    var i := FirstIndex(s, sep);
    assert i == |head| by {
      assert s[..|head|] == head;
      assert s[..i] == s[..|head|][..i] || s[..|head|] == s[..i][..|head|];
    }
    assert s[..i] == head && s[i + 1..] == rest;
  }

  /** Splitting undoes joining pieces that do not contain the separator. */
  lemma {:induction false} SplitJoin(parts: seq<string>, sep: char)
    requires |parts| >= 1
    requires forall i :: 0 <= i < |parts| ==> sep !in parts[i]
    ensures Split(Join(parts, sep), sep) == parts
    decreases |parts|
  {
    if |parts| > 1 {
      var rest := Join(parts[1..], sep);
      assert forall i :: 0 <= i < |parts| - 1 ==> parts[1..][i] == parts[i + 1];
      calc {
        Split(Join(parts, sep), sep);
        Split(parts[0] + [sep] + rest, sep);
        { SplitCons(parts[0], rest, sep); }
        [parts[0]] + Split(rest, sep);
        { SplitJoin(parts[1..], sep); }
        [parts[0]] + parts[1..];
        parts;
      }
    }
  }

  /** True when `s` contains the two characters backslash, dot in a row. */
  predicate HasEscapedDot(s: string) {
    exists i :: 0 <= i < |s| - 1 && s[i] == '\\' && s[i + 1] == '.'
  }

  /** Text without a backslash has no backslash-dot to unescape. */
  lemma NoBackslash(s: string)
    requires '\\' !in s
    ensures !HasEscapedDot(s)
  {
  }

  /** `strings.ReplaceAll(s, "\\.", ".")`: every backslash-dot, found left to
      right without overlap, becomes a plain dot. */
  function UnescapeDots(s: string): (r: string)
    ensures |r| <= |s|
    ensures forall c :: c in r ==> c in s
    ensures !HasEscapedDot(s) ==> r == s
    decreases |s|
  {
    if |s| == 0 then ""
    else if |s| >= 2 && s[0] == '\\' && s[1] == '.' then
      assert HasEscapedDot(s) by { assert s[0] == '\\' && s[1] == '.'; }
      "." + UnescapeDots(s[2..])
    else
      assert HasEscapedDot(s[1..]) ==> HasEscapedDot(s) by {
        if HasEscapedDot(s[1..]) {
          var i :| 0 <= i < |s[1..]| - 1 && s[1..][i] == '\\' && s[1..][i + 1] == '.';
          assert s[i + 1] == '\\' && s[i + 2] == '.';
        }
      }
      [s[0]] + UnescapeDots(s[1..])
  }

  /** Unescaping works piece by piece around each backslash-dot: no
      backslash-dot straddles the boundary, because the one in the middle
      begins with a backslash, not a dot. */
  lemma UnescapeAround(a: string, b: string)
    ensures UnescapeDots(a + "\\." + b) == UnescapeDots(a) + "." + UnescapeDots(b)
  {
    calc {
      UnescapeDots(a + "\\." + b);
      { Associative(a, "\\.", b); }
      UnescapeDots(a + ("\\." + b));
      { assert ("\\." + b)[0] == '\\';
        UnescapeConcat(a, "\\." + b); }
      UnescapeDots(a) + UnescapeDots("\\." + b);
      { UnescapeEscaped(b); }
      UnescapeDots(a) + ("." + UnescapeDots(b));
      { Associative(UnescapeDots(a), ".", UnescapeDots(b)); }
      UnescapeDots(a) + "." + UnescapeDots(b);
    }
  }

  /** Unescaping distributes over a concatenation whose second part does not
      start with a dot: no backslash-dot can straddle such a boundary. */
  lemma {:induction false} UnescapeConcat(a: string, t: string)
    requires t == [] || t[0] != '.'
    ensures UnescapeDots(a + t) == UnescapeDots(a) + UnescapeDots(t)
    decreases |a|
  {
    if |a| == 0 {
      assert a + t == t;
    } else if |a| >= 2 && a[0] == '\\' && a[1] == '.' {
      UnescapeConcat(a[2..], t);
      Uncons(a, 2);
      assert a[..2] == "\\.";
      UnescapeConcatEscaped(a[2..], t);
    } else {
      UnescapeConcat(a[1..], t);
      Uncons(a, 1);
      assert a[..1] == [a[0]];
      UnescapeConcatPlain(a[0], a[1..], t);
    }
  }

  /** The step of `UnescapeConcat` past a backslash-dot at the front. */
  lemma UnescapeConcatEscaped(rest: string, t: string)
    requires UnescapeDots(rest + t) == UnescapeDots(rest) + UnescapeDots(t)
    ensures UnescapeDots("\\." + rest + t) == UnescapeDots("\\." + rest) + UnescapeDots(t)
  {
    calc {
      UnescapeDots("\\." + rest + t);
      { Associative("\\.", rest, t); }
      UnescapeDots("\\." + (rest + t));
      { UnescapeEscaped(rest + t); }
      "." + UnescapeDots(rest + t);
      "." + (UnescapeDots(rest) + UnescapeDots(t));
      { Associative(".", UnescapeDots(rest), UnescapeDots(t)); }
      ("." + UnescapeDots(rest)) + UnescapeDots(t);
      { UnescapeEscaped(rest); }
      UnescapeDots("\\." + rest) + UnescapeDots(t);
    }
  }

  /** The step of `UnescapeConcat` past a character that does not begin a
      backslash-dot. */
  lemma UnescapeConcatPlain(c: char, rest: string, t: string)
    requires t == [] || t[0] != '.'
    requires !(c == '\\' && rest != [] && rest[0] == '.')
    requires UnescapeDots(rest + t) == UnescapeDots(rest) + UnescapeDots(t)
    ensures UnescapeDots([c] + rest + t) == UnescapeDots([c] + rest) + UnescapeDots(t)
  {
    assert !(c == '\\' && rest + t != [] && (rest + t)[0] == '.') by {
      if rest == [] {
        assert rest + t == t;
      } else {
        assert (rest + t)[0] == rest[0];
      }
    }
    calc {
      UnescapeDots([c] + rest + t);
      { Associative([c], rest, t); }
      UnescapeDots([c] + (rest + t));
      { UnescapePlain(c, rest + t); }
      [c] + UnescapeDots(rest + t);
      [c] + (UnescapeDots(rest) + UnescapeDots(t));
      { Associative([c], UnescapeDots(rest), UnescapeDots(t)); }
      ([c] + UnescapeDots(rest)) + UnescapeDots(t);
      { UnescapePlain(c, rest); }
      UnescapeDots([c] + rest) + UnescapeDots(t);
    }
  }

  /** A sequence is its first `n` elements followed by the rest. */
  lemma Uncons<T>(s: seq<T>, n: nat)
    requires n <= |s|
    ensures s == s[..n] + s[n..]
  {
  }

  /** Concatenation is associative. */
  lemma Associative<T>(x: seq<T>, y: seq<T>, z: seq<T>)
    ensures x + (y + z) == (x + y) + z
  {
  }

  /** One step of `UnescapeDots` at a backslash-dot. */
  lemma UnescapeEscaped(rest: string)
    ensures UnescapeDots("\\." + rest) == "." + UnescapeDots(rest)
  {
    assert ("\\." + rest)[2..] == rest;
  }

  /** One step of `UnescapeDots` at a character that does not begin a
      backslash-dot. */
  lemma UnescapePlain(c: char, rest: string)
    requires !(c == '\\' && rest != [] && rest[0] == '.')
    ensures UnescapeDots([c] + rest) == [c] + UnescapeDots(rest)
  {
    assert ([c] + rest)[1..] == rest;
  }

  /** The writer's side of the convention: every dot written as backslash-dot. */
  function EscapeDots(t: string): (s: string)
    decreases |t|
  {
    if |t| == 0 then ""
    else if t[0] == '.' then "\\." + EscapeDots(t[1..])
    else [t[0]] + EscapeDots(t[1..])
  }

  /** Unescaping recovers any intended replacement text from its escaped form,
      so writing every literal dot as backslash-dot never changes the result. */
  lemma {:induction false} UnescapeEscape(t: string)
    ensures UnescapeDots(EscapeDots(t)) == t
    decreases |t|
  {
    if |t| > 0 {
      UnescapeEscape(t[1..]);
      var tail := EscapeDots(t[1..]);
      if t[0] == '.' {
        assert EscapeDots(t) == "\\." + tail;
        assert EscapeDots(t)[2..] == tail;
      } else {
        assert EscapeDots(t) == [t[0]] + tail;
        assert EscapeDots(t)[1..] == tail;
        if t[0] == '\\' && |tail| > 0 {
          EscapeNeverStartsWithDot(t[1..]);
        }
      }
    }
  }

  lemma EscapeNeverStartsWithDot(t: string)
    requires |EscapeDots(t)| > 0
    ensures EscapeDots(t)[0] != '.'
  {
  }

  /** Go's `a < b` on strings: lexicographic, a proper prefix first. Go compares
      UTF-8 bytes; byte order and code point order agree on valid UTF-8. */
  predicate Less(a: string, b: string)
    decreases |a|
  {
    |b| > 0 && (|a| == 0 || a[0] < b[0] || (a[0] == b[0] && Less(a[1..], b[1..])))
  }

  lemma {:induction false} LessAsymmetric(a: string, b: string)
    requires Less(a, b)
    ensures !Less(b, a)
    decreases |a|
  {
    if |a| > 0 && a[0] == b[0] {
      LessAsymmetric(a[1..], b[1..]);
    }
  }

  lemma {:induction false} LessTransitive(a: string, b: string, c: string)
    requires Less(a, b) && Less(b, c)
    ensures Less(a, c)
    decreases |a|
  {
    if |a| > 0 && a[0] == b[0] && b[0] == c[0] {
      LessTransitive(a[1..], b[1..], c[1..]);
    }
  }

  lemma {:induction false} LessTotal(a: string, b: string)
    ensures a == b || Less(a, b) || Less(b, a)
    decreases |a|
  {
    if |a| > 0 && |b| > 0 && a[0] == b[0] {
      LessTotal(a[1..], b[1..]);
      if a[1..] == b[1..] {
        assert a == [a[0]] + a[1..] && b == [b[0]] + b[1..];
      }
    }
  }

  /** `m` comes before every other member of `names`. */
  predicate IsLeast(m: string, names: set<string>) {
    m in names && forall y :: y in names ==> m == y || Less(m, y)
  }

  lemma {:induction false} LeastExists(names: set<string>)
    requires names != {}
    ensures exists m :: IsLeast(m, names)
    decreases |names|
  {
    var x :| x in names;
    var rest := names - {x};
    if rest == {} {
      assert names == {x};
      assert IsLeast(x, names);
    } else {
      LeastExists(rest);
      var m :| IsLeast(m, rest);
      LessTotal(x, m);
      if Less(x, m) {
        forall y | y in names
          ensures x == y || Less(x, y)
        {
          if y != x && y != m {
            LessTransitive(x, m, y);
          }
        }
        assert IsLeast(x, names);
      } else {
        assert IsLeast(m, names);
      }
    }
  }

  lemma LeastUnique(names: set<string>)
    ensures forall m, n :: IsLeast(m, names) && IsLeast(n, names) ==> m == n
  {
    forall m, n | IsLeast(m, names) && IsLeast(n, names)
      ensures m == n
    {
      if m != n {
        LessAsymmetric(m, n);
      }
    }
  }

  /** The first of `names` in Go's string order. */
  function Least(names: set<string>): (m: string)
    requires names != {}
    ensures IsLeast(m, names)
  {
    LeastExists(names);
    LeastUnique(names);
    var m :| IsLeast(m, names); m
  }

  /** Strictly increasing in Go's string order, hence also without repeats. */
  predicate Ascending(s: seq<string>) {
    forall i, j :: 0 <= i < j < |s| ==> Less(s[i], s[j])
  }

  /** The members of `names`, each once, in Go's string order. */
  function Sorted(names: set<string>): (s: seq<string>)
    ensures Ascending(s)
    ensures forall x :: x in s <==> x in names
    ensures |s| == |names|
    decreases |names|
  {
    if names == {} then []
    else
      var m := Least(names);
      var rest := Sorted(names - {m});
      assert forall j :: 0 <= j < |rest| ==> Less(m, rest[j]) by {
        forall j | 0 <= j < |rest|
          ensures Less(m, rest[j])
        {
          assert rest[j] in names - {m};
        }
      }
      [m] + rest
  }
}

=== FILE: traversal.dfy ===
/** Properties of the traversal that relate several steps: how far a step can
    reach in the tree, and how the per-path loop composes. */
module Traversal {
  import opened Optional
  import opened FileSystem
  import opened Errors
  import opened Renamer

  /** Processing a path changes nothing outside the directory that holds it. */
  lemma {:induction false} FileFrame(t: Tree, p: Path, job: Job, bound: nat)
    requires Bounded(t, bound)
    ensures forall k: Path :: !(p.dir <= k.dir) ==> Get(ProcessFile(t, p, job, bound).tree, k) == Get(t, k)
    decreases Rank(bound, p.dir), 2, 0
  {
    if p in t && t[p].Directory? && job.opts.recursive {
      DirectoryFrame(t, p, job, bound);
    }
  }

  /** Processing a directory changes nothing outside it. */
  lemma {:induction false} DirectoryFrame(t: Tree, q: Path, job: Job, bound: nat)
    requires Bounded(t, bound)
    ensures forall k: Path :: !(Inner(q) <= k.dir) ==> Get(ProcessDirectory(t, q, job, bound).tree, k) == Get(t, k)
    decreases Rank(bound, q.dir), 1, 0
  {
    if IsDir(t, q) && !job.os.readDirDenied(q) {
      PathsFrame(t, Entries(t, q), job, bound, Rank(bound, q.dir), Inner(q));
    }
  }

  /** Processing paths that all lie under `scope` changes nothing outside it. */
  lemma {:induction false} PathsFrame(t: Tree, ps: seq<Path>, job: Job, bound: nat, ceiling: nat, scope: seq<string>)
    requires Bounded(t, bound)
    requires forall p :: p in ps ==> Rank(bound, p.dir) < ceiling
    requires forall i :: 0 <= i < |ps| ==> scope <= ps[i].dir
    ensures forall k: Path :: !(scope <= k.dir) ==> Get(ProcessPaths(t, ps, job, bound, ceiling).tree, k) == Get(t, k)
    decreases ceiling, 0, |ps|
  {
    if ps != [] {
      var first := ProcessFile(t, ps[0], job, bound);
      FileFrame(t, ps[0], job, bound);
      PathsFrame(first.tree, ps[1..], job, bound, ceiling, scope);
    }
  }

  /** One turn of the loop: the first path's step, its warning if it
      failed, then the rest of the paths on the tree the first step left. */
  lemma PathsUnfold(t: Tree, ps: seq<Path>, job: Job, bound: nat, ceiling: nat)
    requires Bounded(t, bound) && ps != []
    requires forall p :: p in ps ==> Rank(bound, p.dir) < ceiling
    ensures var first := ProcessFile(t, ps[0], job, bound);
            var rest := ProcessPaths(first.tree, ps[1..], job, bound, ceiling);
            ProcessPaths(t, ps, job, bound, ceiling)
            == Step(rest.tree, first.log + Warned(ps[0], first.status) + rest.log, Done)
  {
  }

  /** The loop over paths is the sequential composition of its parts: what
      the first paths do, failures included, never stops the later ones. */
  lemma {:induction false} PathsAppend(t: Tree, ps: seq<Path>, qs: seq<Path>, job: Job, bound: nat, ceiling: nat)
    requires Bounded(t, bound)
    requires forall p :: p in ps + qs ==> Rank(bound, p.dir) < ceiling
    ensures var a := ProcessPaths(t, ps, job, bound, ceiling);
            var b := ProcessPaths(a.tree, qs, job, bound, ceiling);
            ProcessPaths(t, ps + qs, job, bound, ceiling) == Step(b.tree, a.log + b.log, Done)
    decreases |ps|, 1
  {
    if ps == [] {
      var b := ProcessPaths(t, qs, job, bound, ceiling);
      assert ProcessPaths(t, ps, job, bound, ceiling) == Step(t, [], Done);
      assert ps + qs == qs;
      assert [] + b.log == b.log;
    } else {
      PathsAppendStep(t, ps, qs, job, bound, ceiling);
    }
  }

  /** The paths after the first of `ps + qs` stay under the same ceiling. */
  lemma TailCeiling(ps: seq<Path>, qs: seq<Path>, bound: nat, ceiling: nat)
    requires ps != []
    requires forall p :: p in ps + qs ==> Rank(bound, p.dir) < ceiling
    ensures (ps + qs)[1..] == ps[1..] + qs
    ensures forall p :: p in ps[1..] + qs ==> Rank(bound, p.dir) < ceiling
  {
    assert (ps + qs)[1..] == ps[1..] + qs;
  }

  /** The inductive step of `PathsAppend`: the claim for the paths after
      the first, preceded by the first path's step. */
  lemma {:induction false} PathsAppendStep(t: Tree, ps: seq<Path>, qs: seq<Path>, job: Job, bound: nat, ceiling: nat)
    requires Bounded(t, bound) && ps != []
    requires forall p :: p in ps + qs ==> Rank(bound, p.dir) < ceiling
    ensures var a := ProcessPaths(t, ps, job, bound, ceiling);
            var b := ProcessPaths(a.tree, qs, job, bound, ceiling);
            ProcessPaths(t, ps + qs, job, bound, ceiling) == Step(b.tree, a.log + b.log, Done)
    decreases |ps|, 0
  {
    var first := ProcessFile(t, ps[0], job, bound);
    TailCeiling(ps, qs, bound, ceiling);
    PathsAppend(first.tree, ps[1..], qs, job, bound, ceiling);
    assert (ps + qs)[0] == ps[0];
    var a := ProcessPaths(first.tree, ps[1..], job, bound, ceiling);
    PathsUnfold(t, ps, job, bound, ceiling);
    PathsUnfold(t, ps + qs, job, bound, ceiling);
    Compose(ProcessPaths(t, ps, job, bound, ceiling), first.log + Warned(ps[0], first.status), a,
            ProcessPaths(a.tree, qs, job, bound, ceiling),
            ProcessPaths(first.tree, (ps + qs)[1..], job, bound, ceiling),
            ProcessPaths(t, ps + qs, job, bound, ceiling));
  }

  /** Log bookkeeping for `PathsAppendStep`: a prefix printed before two
      steps in a row is printed before their composition. */
  lemma Compose(x: Step, prefix: seq<Event>, a: Step, b: Step, whole: Step, y: Step)
    requires x == Step(a.tree, prefix + a.log, Done)
    requires whole == Step(b.tree, a.log + b.log, Done)
    requires y == Step(whole.tree, prefix + whole.log, Done)
    ensures y == Step(b.tree, x.log + b.log, Done)
  {
    assert prefix + (a.log + b.log) == (prefix + a.log) + b.log;
  }

  /** One path on its own: its step's output, then a warning naming it if the
      step failed; the loop itself never fails. */
  lemma PathsOne(t: Tree, p: Path, job: Job, bound: nat, ceiling: nat)
    requires Bounded(t, bound)
    requires Rank(bound, p.dir) < ceiling
    ensures var f := ProcessFile(t, p, job, bound);
            ProcessPaths(t, [p], job, bound, ceiling)
            == Step(f.tree, f.log + Warned(p, f.status), Done)
  {
    var f := ProcessFile(t, p, job, bound);
    assert [p][1..] == [];
    assert ProcessPaths(f.tree, [], job, bound, ceiling) == Step(f.tree, [], Done);
  }

  /** The loop over the arguments, one step: the first argument's matches
      are processed, then the remaining arguments on the tree that left, with
      the logs in order and the status of the remaining arguments. */
  lemma FilesCons(t: Tree, g: string, gs: seq<string>, ps: seq<Path>, job: Job, bound: nat)
    requires Bounded(t, bound)
    requires job.os.glob(t, g) == Some(ps)
    ensures forall p :: p in ps ==> Rank(bound, p.dir) < bound + 1
    ensures var done := ProcessPaths(t, ps, job, bound, bound + 1);
            var rest := ProcessFiles(done.tree, gs, job, bound);
            ProcessFiles(t, [g] + gs, job, bound) == Step(rest.tree, done.log + rest.log, rest.status)
  {
    assert ([g] + gs)[0] == g && ([g] + gs)[1..] == gs;
  }

  /** A single well-formed glob argument: the run is the loop over its
      matches, with nothing added before or after. */
  lemma FilesOne(t: Tree, g: string, ps: seq<Path>, job: Job, bound: nat)
    requires Bounded(t, bound)
    requires job.os.glob(t, g) == Some(ps)
    ensures forall p :: p in ps ==> Rank(bound, p.dir) < bound + 1
    ensures ProcessFiles(t, [g], job, bound) == ProcessPaths(t, ps, job, bound, bound + 1)
  {
    var done := ProcessPaths(t, ps, job, bound, bound + 1);
    assert [g][1..] == [];
    assert done.log + [] == done.log;
  }

  /** The loop over the arguments is the sequential composition of its
      parts: when the first arguments end the run with a malformed glob, the
      later ones never run; otherwise the later ones run on the tree the
      first ones left, and their output follows. */
  lemma {:induction false} FilesAppend(t: Tree, gs: seq<string>, hs: seq<string>, job: Job, bound: nat)
    requires Bounded(t, bound)
    ensures var a := ProcessFiles(t, gs, job, bound);
            ProcessFiles(t, gs + hs, job, bound)
            == if a.status.Failed? then a
               else var b := ProcessFiles(a.tree, hs, job, bound);
                    Step(b.tree, a.log + b.log, b.status)
    decreases |gs|
  {
    if gs == [] {
      assert gs + hs == hs;
      assert [] + ProcessFiles(t, hs, job, bound).log == ProcessFiles(t, hs, job, bound).log;
    } else {
      assert (gs + hs)[0] == gs[0] && (gs + hs)[1..] == gs[1..] + hs;
      match job.os.glob(t, gs[0])
      case None =>
      case Some(ps) =>
        var done := ProcessPaths(t, ps, job, bound, bound + 1);
        FilesAppend(done.tree, gs[1..], hs, job, bound);
        FilesAppendStep(ProcessFiles(t, gs, job, bound), done.log,
                        ProcessFiles(done.tree, gs[1..], job, bound),
                        ProcessFiles(done.tree, gs[1..] + hs, job, bound),
                        ProcessFiles(t, gs + hs, job, bound),
                        job, bound, hs);
    }
  }

  /** Log bookkeeping for `FilesAppend`: output printed before the rest of
      the arguments is printed before their composition. */
  lemma FilesAppendStep(x: Step, prefix: seq<Event>, a: Step, whole: Step, y: Step, job: Job, bound: nat, hs: seq<string>)
    requires Bounded(a.tree, bound)
    requires x == Step(a.tree, prefix + a.log, a.status)
    requires whole == if a.status.Failed? then a
                      else var b := ProcessFiles(a.tree, hs, job, bound);
                           Step(b.tree, a.log + b.log, b.status)
    requires y == Step(whole.tree, prefix + whole.log, whole.status)
    ensures y == if x.status.Failed? then x
                 else var b := ProcessFiles(x.tree, hs, job, bound);
                      Step(b.tree, x.log + b.log, b.status)
  {
    if !a.status.Failed? {
      var b := ProcessFiles(a.tree, hs, job, bound);
      assert prefix + (a.log + b.log) == (prefix + a.log) + b.log;
    }
  }

  /** A malformed glob ends the run wherever it stands: after the earlier
      arguments succeed, the run stops at it with their output and tree, and
      no later argument runs. */
  lemma MalformedGlobStops(t: Tree, gs: seq<string>, g: string, hs: seq<string>, job: Job, bound: nat)
    requires Bounded(t, bound)
    requires ProcessFiles(t, gs, job, bound).status == Done
    requires job.os.glob(ProcessFiles(t, gs, job, bound).tree, g).None?
    ensures var a := ProcessFiles(t, gs, job, bound);
            ProcessFiles(t, gs + [g] + hs, job, bound) == Step(a.tree, a.log, Failed(GlobFailed(g)))
  {
    var a := ProcessFiles(t, gs, job, bound);
    FilesAppend(t, gs, [g] + hs, job, bound);
    assert gs + [g] + hs == gs + ([g] + hs);
    assert a.log + [] == a.log;
  }
}
